=== FILE: README.md ===
# Model of the senko in-process test framework

This project models, in Dafny, the test framework built into the senko script
runtime: `describe`, `test` and `expect`, the six matchers reachable from an
expectation handle (`toEqual`, `toBeBoolean`, `toBeTrue`, `toBeFalse`,
`toBeArray`, `toBeArrayOfSize`), the structural comparison behind `toEqual`,
and the result channel. The channel is three embedder slots of the script
context: suite name, pass flag and last diagnostic. Through it the matcher
callbacks report to the enclosing `test`.

Files and modules:

- `options.dfy` (`Options`): an optional value, used for absent properties and
  unset slots.
- `decimal.dfy` (`Decimal`): `std::to_string` for integers, and its inverse.
- `cstrings.dfy` (`CStrings`): the cut at the first NUL that every hand-over
  of a string through a `char*` makes.
- `values.dfy` (`JsValues`): script values (primitives, arrays, plain objects),
  own keys and property reads as the engine API returns them.
- `engine.dfy` (`Engine`): number and string conversions. Those the language
  fixes are written out. The rest come from a `Host` parameter.
- `compare.dfy` (`Compare`): `compareArrays`, `compareObjects` and the
  dispatch inside `toEqual`.
- `diagnostic.dfy` (`Diagnostic`): the three-line failure report.
- `channel.dfy` (`ResultChannel`): the three slots and the writes made to them.
- `matchers.dfy` (`Matchers`): `getNegate`, `getExpected`, the six matchers and
  their callbacks.
- `runner.dfy` (`Runner`): `expect`, the `not` accessor, `describe`, `test` and
  `getExports`. A script is a list of `describe`/`test`/`expect` statements
  whose function arguments are again statement lists.
- `protocol.dfy` (`Protocol`): properties relating several calls.

Everything is a pure function over immutable data. The context is threaded
explicitly: every call takes the channel and returns the new channel, the
reports `test` printed, and whether it returned normally, threw, or reached a
case the source leaves unspecified.

## Behaviour the model reproduces

These are read from the code.

- The comparison loops exit after their first iteration. `toEqual` therefore
  looks only at an array's first element and an object's first own key. It
  accepts `{a: 1, b: 2}` against `{a: 1, b: 3}` (`Compare.ToEqualMissesLaterEntries`).
- Every array is an object, so a nested array goes through `compareObjects`.
  The array branch inside `compareObjects` can never run. `toEqual({}, [])`
  holds because neither side has an own key
  (`Compare.EmptyObjectEqualsEmptyArray`). The engine returns array indices
  as numeric keys, so `toEqual({a: 1}, [1])` fails on the first key.
- `.not` sets `negate` to `true`; it does not toggle it. `.not.not` stays
  negated.
- After a failed assertion, `expect` returns nothing. A matcher called on that
  result therefore throws a script error. The argument-count check of
  `expect` is skipped in that state.
- A matcher usage error throws, but the C++ code keeps going and returns
  `false`. The callback therefore still writes a failure into the channel.
  The enclosing `test` prints the failure line before the exception
  propagates. A usage error is therefore also reported as a failed test.
- `test` returns `true` on success and no value on failure. Resetting the pass
  flag does not clear the old diagnostic. That diagnostic is never read again.
- Strings pass through `char*` buffers on their way into reports and onto
  the terminal, so a NUL character ends them there: `expect("a\0b").toBeTrue()`
  reports "Received: a". The model applies this cut (`CStrings.CText`) where
  the code converts: in `stringifyForOutput`, to the file name and the
  finished report in `callbackErrOutput`, and to each `%s` that `test` prints.
- `toBeArray`'s report shows its first argument, usually absent and so
  "undefined", not the value under test.
- `test` reads the suite slot with hard-coded index 158 and the pass flag and
  diagnostic with 159 and 160. Writes go through a name-to-index table. The
  model assumes the indices agree.

## Model

| member | source | states |
|---|---|---|
| JsValues.OwnKeys | src/modules/test/matchers.cpp:104-105 | an array's own keys are its indices as numbers; an object's are its property names; the key count equals the element or property count |
| JsValues.GetFirstKey | src/modules/test/matchers.cpp:115-125 | reading an object at its first own key yields its first value, which is what the comparison recurses on |
| Compare.CompareObjects | src/modules/test/matchers.cpp:102-143 | different key counts give false; no keys returns the incoming flag unchanged; different first keys give false |
| Compare.CompareArrays | src/modules/test/matchers.cpp:81-100 | an empty expected array leaves the incoming flag unchanged |
| Compare.CompareObjectsIffFirstPath | src/modules/test/matchers.cpp:102-143 | from an incoming true, the comparison succeeds exactly when both objects agree on key count, first key and, recursively, the value under it (`FirstPath`), so {a: 1} against {a: 2} fails |
| Compare.CompareArraysIffFirstPath | src/modules/test/matchers.cpp:81-100 | from an incoming true, a non-empty expected array compares equal exactly when its first element agrees with the actual first element |
| Compare.ToEqualIffFirstPath | src/modules/test/matchers.cpp:161-183 | for an array or object expected, wherever defined, toEqual holds exactly when both sides agree on the inspected part |
| Compare.CompareArraysFirstOnly | src/modules/test/matchers.cpp:84-99 | two expected arrays of equal length with the same first element compare alike against any actual array |
| Compare.CompareObjectsFirstKeyOnly | src/modules/test/matchers.cpp:113-142 | two expected objects with the same key count, first key and first value compare alike against any object |
| Compare.CompareObjectsReflexive | src/modules/test/matchers.cpp:102-143 | every value compared with itself, starting from true, gives true |
| Compare.CompareObjectsSymmetric | src/modules/test/matchers.cpp:102-143 | swapping expected and actual never changes the result |
| Compare.CompareObjectsMonotone | src/modules/test/matchers.cpp:102-143 | success from an incoming false implies success from an incoming true |
| Compare.ToEqualRaw | src/modules/test/matchers.cpp:158-187 | unspecified exactly when actual is cast unchecked (array expected, non-array actual; object expected, primitive actual); arrays of different length are unequal; a primitive expected is strictly equal to actual |
| Compare.ToEqualReflexive | src/modules/test/matchers.cpp:161-187 | toEqual accepts every value against itself |
| Compare.ToEqualSymmetricOnArrays | src/modules/test/matchers.cpp:163-176 | between two arrays, toEqual does not depend on the order of the operands |
| Compare.ToEqualMissesLaterEntries | src/modules/test/matchers.cpp:81-143 | objects or arrays that differ only after their first entry pass toEqual |
| Compare.EmptyObjectEqualsEmptyArray | src/modules/test/matchers.cpp:177-182 | an empty object expected against an empty array passes |
| CStrings.CText | src/modules/test/matchers.cpp:18-20 | the text a `char*` carries is the longest NUL-free prefix of the string |
| CStrings.CTextUnique | src/modules/test/matchers.cpp:18-20 | any NUL-free prefix that stops at a NUL or at the end is that text, so the three clauses define the cut |
| CStrings.CTextOfNulFree | src/modules/test/matchers.cpp:18-20 | a string without NUL passes through a `char*` unchanged |
| CStrings.CTextAppend | src/modules/test/matchers.cpp:44 | a general fact about the cut: joining a NUL-free head to a tail and cutting cuts only the tail |
| CStrings.CTextIdempotent | src/modules/test/mod.cpp:84-87 | passing a text through a second `char*` changes nothing |
| Engine.Display | src/modules/test/matchers.cpp:15-23 | the shown text never holds a NUL; a string is shown exactly up to its first NUL (`CText`) and whole when it has none; other primitives are shown whole in their string form |
| Engine.DisplayNumberRoundTrip | src/modules/test/matchers.cpp:15-23 | a shown number parses back to that number |
| JsValues.TypeOf | src/modules/test/matchers.cpp:251 | typeof gives "boolean" exactly for booleans and "object" exactly for null, arrays and objects |
| Decimal.IntTextRoundTrip | src/modules/test/matchers.cpp:36-37 | a rendered line number or size parses back to the same integer |
| Decimal.IntTextInjective | src/modules/test/matchers.cpp:428-432 | two sizes render to the same text only if they are equal |
| Diagnostic.ErrOutputPlain | src/modules/test/matchers.cpp:25-45 | without colour, the report is "Expected: ", the expected text, "Received: ", the received text and "   at file:line", each on its own line, ended at the first NUL; a NUL in the file name cuts only the name |
| Diagnostic.ErrOutputPlainNulFree | src/modules/test/matchers.cpp:38-44 | with expected and received texts free of NUL, the uncoloured report holds both texts whole |
| ResultChannel.RecordFailure | src/modules/test/matchers.cpp:204-214 | a failure sets the pass flag to false and the diagnostic slot to the report, leaves the suite name, and keeps the channel valid |
| ResultChannel.ResetAssertion | src/modules/test/mod.cpp:77 | the pass flag becomes true; suite name and old diagnostic are left in place |
| Matchers.GetNegate | src/modules/test/matchers.cpp:47-65 | the read throws exactly when negate is present and not a boolean; it yields true exactly when negate is the boolean true |
| Matchers.MatcherNamed | src/modules/test/mod.cpp:137-142 | a property name that resolves to a matcher is that matcher's field name |
| Matchers.MatcherNamedFieldName | src/modules/test/mod.cpp:137-142 | every matcher is found under its own field name, so the six names are distinct |
| Matchers.Raw | src/modules/test/matchers.cpp:161-403 | the raw verdict is unspecified only for toEqual with an unchecked cast; toBeBoolean holds exactly when typeof gives "boolean"; toBeTrue and toBeFalse hold only of booleans |
| Matchers.ExpectedText | src/modules/test/matchers.cpp:207-431 | the expected text of every matcher is free of NUL, so it reaches the report whole |
| Matchers.ReceivedText | src/modules/test/matchers.cpp:211-436 | the received text is free of NUL; for toBeBoolean it is "boolean" exactly when the value under test is a boolean |
| Matchers.FailureText | src/modules/test/matchers.cpp:214 | the report a callback records holds no NUL, so later conversions keep it whole |
| Matchers.FailureTextPlain | src/modules/test/matchers.cpp:38-44 | without colour the report is the expected and received texts whole on their labelled lines, then the call site |
| Matchers.Evaluate | src/modules/test/matchers.cpp:145-410 | an argument-count violation throws and returns false; otherwise the outcome is unspecified exactly when the raw comparison is; the call throws exactly when reading negate throws |
| Matchers.Callback | src/modules/test/matchers.cpp:196-216 | returns the matcher's value; on success the channel is unchanged; on failure it holds false and this call's report; the channel stays valid |
| Matchers.NegationFlips | src/modules/test/matchers.cpp:189-190 | flipping a boolean negate flips the answer of every well-formed matcher call |
| Matchers.AbsentNegateIsFalse | src/modules/test/matchers.cpp:51-54 | a handle without negate behaves exactly like one with negate false |
| Matchers.BadNegateThrows | src/modules/test/matchers.cpp:58-62 | a present non-boolean negate makes every defined matcher call throw |
| Matchers.ArgumentsIgnored | src/modules/test/matchers.cpp:218-233 | toBeBoolean, toBeFalse and toBeArray give the same result whatever arguments they receive |
| Matchers.BooleanIsTrueOrFalse | src/modules/test/matchers.cpp:226 | toBeBoolean holds exactly when toBeTrue or toBeFalse holds, and those two never both hold |
| Matchers.ArrayOfSizeMeaning | src/modules/test/matchers.cpp:397-403 | toBeArrayOfSize(n) holds exactly for arrays of length n; it implies toBeArray; every array passes for its own length |
| Matchers.ToBeArrayIffSomeSize | src/modules/test/matchers.cpp:347 | toBeArray holds exactly of the values that pass toBeArrayOfSize for some size, so plain objects fail it |
| Matchers.ToEqualBooleanAgrees | src/modules/test/matchers.cpp:184-187 | for a primitive value, toEqual(true) agrees with toBeTrue and toEqual(false) with toBeFalse |
| Matchers.NotMarkIffNegated | src/modules/test/matchers.cpp:199-214 | a label matcher's expected text starts with "[Not] " exactly when the handle is negated; toEqual's is the mark followed by the value |
| Matchers.ArrayOfSizeTexts | src/modules/test/matchers.cpp:427-434 | for an array and toBeArrayOfSize(n), the expected text is "Array of size n" and the received text is "Array of size" plus the actual length |
| Matchers.UsageErrorRecordsFailure | src/modules/test/matchers.cpp:152-156 | after a usage error, the callback throws, returns false and still records the failure report |
| Runner.ExpectCall | src/modules/test/mod.cpp:106-153 | no handle exactly when the pass flag is false, before the arguments are checked; otherwise more than one argument is a usage error; a fresh handle has negate false and holds the argument, or undefined |
| Runner.HandleProperties | src/modules/test/mod.cpp:137-153 | a fresh handle has one property per matcher, each resolving to that matcher, followed by negate and expected |
| Runner.HandleHasEveryMatcher | src/modules/test/mod.cpp:137-142 | every matcher has its property on a fresh handle |
| Runner.Not | src/modules/test/mod.cpp:155-175 | the clone reads as negated without throwing and holds the same expected value |
| Runner.NotsCollapse | src/modules/test/mod.cpp:163-169 | any positive number of .not reads gives the same handle as one read |
| Runner.FreshHandleAnswersRaw | src/modules/test/matchers.cpp:189-190 | on the handle expect(x) returns, a well-formed matcher call answers its raw verdict without throwing, and after any positive number of .not reads the opposite |
| Runner.ExpectedSurvivesNots | src/modules/test/matchers.cpp:67-79 | every matcher called on expect(x), through any number of .not reads, reads x as its expected value |
| Runner.NotNotStaysNegated | src/modules/test/mod.cpp:163-169 | expect(x).not.not answers the opposite of expect(x) |
| Runner.ExecStmt | src/modules/test/mod.cpp:21-135 | describe or test with fewer than two arguments, a non-string name or a non-function body throws and changes nothing (:21-37); after a failed assertion `expect` returns nothing, so the statement throws exactly when it calls a matcher (:108-111); otherwise `expect` with more than one argument throws and changes nothing (:131-135); every statement keeps the channel valid |
| Runner.RunDescribe | src/modules/test/mod.cpp:39-41 | the body runs under the new suite name; an exception from the body leaves `describe` with the body's output and channel, and a normal end returns undefined |
| Runner.ExecBodyStopsAtRaise | src/modules/test/mod.cpp:41 | once a statement list raises, statements after it never run: appending any statements changes nothing |
| Runner.RunUsesStopsAtThrow | src/modules/test/matchers.cpp:196-216 | a matcher call that throws ends the statement, whatever matcher calls follow on the handle |
| Runner.RunTest | src/modules/test/mod.cpp:69-97 | a report is appended even if the body threw: Passed when the flag ends true, Failed with the stored diagnostic when it ends false, under the suite name read before the body; the value is true on success and undefined on failure |
| Runner.RenderPlain | src/modules/test/mod.cpp:86-93 | without colour, a pass prints a check mark, the suite, " > " and the test name; a failure prints a cross mark, the same text and then the diagnostic block; each of the three ends at its first NUL while the rest of the line is still printed |
| Runner.RenderPlainNulFree | src/modules/test/mod.cpp:93 | suite and test names without NUL are printed as they are |
| Runner.RenderFailureText | src/modules/test/mod.cpp:86-87 | a diagnostic recorded by a matcher callback is printed whole |
| Runner.Exports | src/modules/test/mod.cpp:180-190 | four distinct names in the order describe, test, expect, default |
| Protocol.TestAgree | src/modules/test/mod.cpp:75-96 | a test run from two channels with the same suite name ends the same way, prints the same reports and leaves agreeing channels |
| Protocol.TestIgnoresEarlierTests | src/modules/test/mod.cpp:77-78 | a well-formed test call does not depend on earlier tests' pass flag or diagnostic |
| Protocol.DescribeNamesItsTests | src/modules/test/mod.cpp:40-41 | every test run inside describe(n, ...) with no nested describe is reported under n |
| Protocol.ExpectAfterFailure | src/modules/test/mod.cpp:106-135 | after a failure, any matcher use on expect's result throws, and a bare expect(1, 2) returns normally |
| Protocol.FailingTest | src/modules/test/mod.cpp:82-88 | a test whose only assertion is expect(n).toEqual(k) with n != k reports Failed with a report showing n and k, and returns undefined |
| Protocol.PassingTest | src/modules/test/mod.cpp:90-96 | a test whose only assertion is expect(n).toEqual(n) reports Passed and returns true, whatever the channel held |
| Protocol.FailThenPass | src/modules/test/mod.cpp:75-96 | in one suite, a failing test followed by a passing one reports Failed then Passed |
| Protocol.SingleTest | src/modules/test/mod.cpp:75-96 | a test whose body ends with the flag false reports Failed with the stored diagnostic, and rethrows if the body threw; with the flag true it reports Passed, then returns true or, if the body threw, rethrows |
| Protocol.UsageErrorFailsAndThrows | src/modules/test/mod.cpp:78-88 | expect(x).toEqual(y, z) inside a test records and reports a failure, then the exception propagates; later matcher calls and later statements of the body never run |
| Protocol.UsageErrorAbortsRun | src/modules/test/mod.cpp:131-135 | expect(x, y) in a passing test throws; the test still reports Passed under its suite, and the exception leaves the test, the describe and the script, so nothing after it runs |

## Left out

- src/main.cpp is not part of this model. It covers engine bootstrap, file
  reading, path handling, console printing, the command line and the event
  loop. All of this is I/O.
- Module registration (`init`, src/modules/test/mod.cpp:192-213) is left out.
  It only installs the three functions; `Runner.Exports` lists their names.
- Stack-trace capture and the script-id to URL lookup
  (src/modules/test/matchers.cpp:28-36) are left out. They are replaced by the
  `Location` each matcher call carries. The metadata class in
  src/api/Senkora.hpp is not part of this model.
- JSON serialisation of objects is left out. So are number conversions of
  strings and objects. They are fields of the `Host` parameter.
- Floating point is left out: numbers are integers. NaN, -0 and fractional
  sizes do not occur, except that a conversion may report "not an integer".
- Decimal.IntText: a number is shown in plain decimal at any size. The
  engine's number-to-string conversion prints exponent form ("1e+21") from
  10^21 on, so `Engine.DisplayNumberRoundTrip` holds for all integers only
  because numbers are modelled as integers.
- Object identity, functions and symbols as values, array holes and cyclic
  objects are left out. Property names that are array indices are also left
  out: the engine would report them as numbers and enumerate them first.
  Strict equality is only ever applied with a primitive on one side, so
  identity never decides a result.
- The terminal is left out. `test` output is a list of reports, and
  `Runner.Render` gives the printed text; the colour codes are a `Palette`
  parameter.
- Script code other than calls to `describe`, `test` and `expect` is left out,
  and so are exceptions other than the framework's own. A test body is a list
  of such calls. Reusing one handle for several matcher calls is supported.
  Changing a handle's properties from script is not.
- Reading a slot that was never written is modelled as `undefined`. The engine
  may instead abort if the context's slot storage is still too small.
- The unused `testObj` (src/modules/test/mod.cpp:72-73) and the no-effect
  expression at src/modules/test/matchers.cpp:211 are left out.
- Strings are sequences of Unicode scalar values. A lone UTF-16 surrogate in
  a script string, which the engine's UTF-8 conversion
  (src/modules/test/matchers.cpp:18-20, src/modules/test/mod.cpp:75) turns
  into U+FFFD, cannot be represented, so that replacement is not modelled.
- Engine calls made after an exception is scheduled within the same callback
  are assumed to behave normally.
- Runner.RunDescribe: its contract states the propagation of the body's
  exception but not the suite name. What `describe` does with the suite
  name is stated by `Protocol.DescribeNamesItsTests`.

=== FILE: channel.dfy ===
/** The result channel: three per-context embedder slots through which
    `describe`, `test` and the matcher callbacks talk to each other (slots 158,
    159 and 160 of the context). A slot that was never written reads as
    `undefined`, modelled as `None`. */
module ResultChannel {
  import opened Options

  datatype Channel = Channel(
    suite: Option<string>,   // name given to the most recent `describe`
    ok: Option<bool>,        // whether the current test has not failed yet
    errStr: Option<string>)  // diagnostic of the most recent failure

  /** A fresh context: nothing written yet. */
  const Initial := Channel(None, None, None)

  /** A `false` pass flag always comes with a diagnostic, because the only
      writer of `false` writes the diagnostic right after it. */
  predicate Valid(c: Channel) {
    c.ok == Some(false) ==> c.errStr.Some?
  }

  /** What a failing matcher callback writes. */
  function RecordFailure(c: Channel, diagnostic: string): (r: Channel)
    ensures Valid(r) && r.ok == Some(false)
    ensures r.errStr == Some(diagnostic) && r.suite == c.suite
  {
    c.(ok := Some(false), errStr := Some(diagnostic))
  }

  /** What `test` writes before running its body: the pass flag only; an
      earlier diagnostic stays in its slot but is unreachable. */
  function ResetAssertion(c: Channel): (r: Channel)
    ensures Valid(r) && r.ok == Some(true)
    ensures r.suite == c.suite && r.errStr == c.errStr
  {
    c.(ok := Some(true))
  }

  /** The string conversion `test` applies to a slot it reads. The cut at the
      first NUL that the conversion to `char*` makes is applied where the
      text is printed (`Runner.Render`). */
  function SlotText(slot: Option<string>): string {
    slot.GetOr("undefined")
  }
}

=== FILE: compare.dfy ===
/** The structural comparison behind `toEqual` (`compareArrays`,
    `compareObjects` and the dispatch in `toEqual`).

    Both comparison loops leave after their first iteration, so only the first
    element of an array and the first own key of an object are ever inspected.
    The model keeps that behaviour. Because every array is also an object, a
    nested array always goes through `CompareObjects`; the source's array branch
    inside `compareObjects` can never be taken and is not modelled.

    The incoming `result` flag is returned unchanged when nothing is compared
    (an empty array, an object with no own keys). */
module Compare {
  import opened Options
  import opened JsValues

  /** `compareObjects`. */
  function CompareObjects(expected: Value, actual: Value, result: bool): (r: bool)
    requires IsObject(expected) && IsObject(actual)
    ensures |OwnKeys(expected)| != |OwnKeys(actual)| ==> !r
    ensures |OwnKeys(expected)| == |OwnKeys(actual)| == 0 ==> r == result
    ensures |OwnKeys(expected)| == |OwnKeys(actual)| > 0 && OwnKeys(expected)[0] != OwnKeys(actual)[0] ==> !r
    decreases expected
  {
    var ek := OwnKeys(expected);
    var ak := OwnKeys(actual);
    if |ek| != |ak| then false
    else if |ek| == 0 then result
    else if !StrictEquals(ek[0], ak[0]) then false
    else
      // the values read at the first key; see JsValues.GetFirstKey
      var ev := FirstValue(expected);
      var av := FirstValue(actual);
      if IsObject(ev) && IsObject(av) then CompareObjects(ev, av, result)
      else StrictEquals(ev, av)
  }

  /** Reading index `i` of an array; past the end it is `undefined`. */
  function ElementAt(a: seq<Value>, i: nat): Value {
    if i < |a| then a[i] else Undefined
  }

  /** `compareArrays`: only the element pair at index 0 is compared. */
  function CompareArrays(expected: seq<Value>, actual: seq<Value>, result: bool): (r: bool)
    ensures |expected| == 0 ==> r == result
  {
    if |expected| == 0 then result
    else
      var x := expected[0];
      var y := ElementAt(actual, 0);
      if IsObject(x) && IsObject(y) then CompareObjects(x, y, result)
      else StrictEquals(x, y)
  }

  /** The cases in which `toEqual` casts `actual` to an array or object without
      checking it; the engine's behaviour there is not defined. */
  predicate ToEqualUnspecified(expected: Value, actual: Value) {
    (expected.Arr? && !actual.Arr?) || (expected.Obj? && !IsObject(actual))
  }

  /** The comparison `toEqual` makes, before negation; `None` where the source
      leaves the outcome unspecified. */
  function ToEqualRaw(expected: Value, actual: Value): (r: Option<bool>)
    ensures r.None? <==> ToEqualUnspecified(expected, actual)
    ensures expected.Arr? && actual.Arr? && |expected.elems| != |actual.elems| ==> r == Some(false)
    ensures !IsObject(expected) ==> r == Some(expected == actual)
  {
    if expected.Arr? then
      if !actual.Arr? then None
      else if |expected.elems| != |actual.elems| then Some(false)
      else Some(CompareArrays(expected.elems, actual.elems, true))
    else if expected.Obj? then
      if !IsObject(actual) then None
      else Some(CompareObjects(expected, actual, true))
    else Some(StrictEquals(expected, actual))
  }

  /** Equal values compare equal: `compareObjects(v, v)` with an incoming
      `true` yields `true`. */
  lemma {:induction false} CompareObjectsReflexive(v: Value)
    requires IsObject(v)
    ensures CompareObjects(v, v, true)
    decreases v
  {
    if |OwnKeys(v)| > 0 && IsObject(FirstValue(v)) {
      CompareObjectsReflexive(FirstValue(v));
    }
  }

  /** `toEqual` accepts every value compared with itself. */
  lemma ToEqualReflexive(v: Value)
    ensures ToEqualRaw(v, v) == Some(true)
  {
    if v.Arr? && |v.elems| > 0 && IsObject(v.elems[0]) {
      CompareObjectsReflexive(v.elems[0]);
    } else if v.Obj? {
      CompareObjectsReflexive(v);
    }
  }

  /** The comparison does not depend on which side is the expected one. */
  lemma {:induction false} CompareObjectsSymmetric(e: Value, a: Value, result: bool)
    requires IsObject(e) && IsObject(a)
    ensures CompareObjects(e, a, result) == CompareObjects(a, e, result)
    decreases e
  {
    var ek := OwnKeys(e);
    var ak := OwnKeys(a);
    if |ek| == |ak| > 0 && ek[0] == ak[0] {
      var ev := FirstValue(e);
      var av := FirstValue(a);
      if IsObject(ev) && IsObject(av) {
        CompareObjectsSymmetric(ev, av, result);
      }
    }
  }

  /** Between two arrays, `toEqual` is symmetric. */
  lemma ToEqualSymmetricOnArrays(e: Value, a: Value)
    requires e.Arr? && a.Arr?
    ensures ToEqualRaw(e, a) == ToEqualRaw(a, e)
  {
    if |e.elems| == |a.elems| > 0 && IsObject(e.elems[0]) && IsObject(a.elems[0]) {
      CompareObjectsSymmetric(e.elems[0], a.elems[0], true);
    }
  }

  /** An incoming `false` can never turn into a success that an incoming
      `true` would not also give. */
  lemma {:induction false} CompareObjectsMonotone(e: Value, a: Value)
    requires IsObject(e) && IsObject(a)
    ensures CompareObjects(e, a, false) ==> CompareObjects(e, a, true)
    decreases e
  {
    var ek := OwnKeys(e);
    var ak := OwnKeys(a);
    if |ek| == |ak| > 0 && ek[0] == ak[0] {
      var ev := FirstValue(e);
      var av := FirstValue(a);
      if IsObject(ev) && IsObject(av) {
        CompareObjectsMonotone(ev, av);
      }
    }
  }

  /** Only the key count, the first key and the first value of `expected`
      matter: two objects that agree on those compare alike against anything. */
  lemma CompareObjectsFirstKeyOnly(e1: Value, e2: Value, a: Value, result: bool)
    requires IsObject(e1) && IsObject(e2) && IsObject(a)
    requires |OwnKeys(e1)| == |OwnKeys(e2)|
    requires |OwnKeys(e1)| > 0 ==> OwnKeys(e1)[0] == OwnKeys(e2)[0] && FirstValue(e1) == FirstValue(e2)
    ensures CompareObjects(e1, a, result) == CompareObjects(e2, a, result)
  {
  }

  /** Likewise for arrays of equal length: only index 0 matters. */
  lemma CompareArraysFirstOnly(e1: seq<Value>, e2: seq<Value>, a: seq<Value>, result: bool)
    requires |e1| == |e2|
    requires |e1| > 0 ==> e1[0] == e2[0]
    ensures CompareArrays(e1, a, result) == CompareArrays(e2, a, result)
  {
  }

  // ---------------------------------------------------------------------------
  // What the comparison inspects

  /** The part of a value the comparison looks at: a primitive itself, or an
      object's key count together with its first key and what lies under it. */
  datatype Path = Prim(v: Value) | Keys(count: nat, first: Option<(Value, Path)>)

  /** The inspected part of `v`, defined without reference to the
      comparison. */
  function FirstPath(v: Value): Path
    decreases v
  {
    if !IsObject(v) then Prim(v)
    else if |OwnKeys(v)| == 0 then Keys(0, None)
    else Keys(|OwnKeys(v)|, Some((OwnKeys(v)[0], FirstPath(FirstValue(v)))))
  }

  /** With an incoming `true`, `compareObjects` succeeds exactly when both
      objects agree on their key count, first key and, recursively, the value
      under it. So `{a: 1}` against `{a: 2}` fails. */
  lemma {:induction false} CompareObjectsIffFirstPath(e: Value, a: Value)
    requires IsObject(e) && IsObject(a)
    ensures CompareObjects(e, a, true) <==> FirstPath(e) == FirstPath(a)
    decreases e
  {
    var ek := OwnKeys(e);
    var ak := OwnKeys(a);
    if |ek| == |ak| > 0 && ek[0] == ak[0] {
      var ev := FirstValue(e);
      var av := FirstValue(a);
      if IsObject(ev) && IsObject(av) {
        CompareObjectsIffFirstPath(ev, av);
      }
      assert FirstPath(e) == FirstPath(a) <==> FirstPath(ev) == FirstPath(av);
    }
  }

  /** `compareArrays` succeeds on a non-empty array exactly when its first
      element agrees with the actual array's first element. */
  lemma CompareArraysIffFirstPath(e: seq<Value>, a: seq<Value>)
    requires |e| > 0
    ensures CompareArrays(e, a, true) <==> FirstPath(e[0]) == FirstPath(ElementAt(a, 0))
  {
    if IsObject(e[0]) && IsObject(ElementAt(a, 0)) {
      CompareObjectsIffFirstPath(e[0], ElementAt(a, 0));
    }
  }

  /** For an object or array expected, wherever the outcome is defined,
      `toEqual` holds exactly when both sides agree on the inspected part. */
  lemma ToEqualIffFirstPath(e: Value, a: Value)
    requires IsObject(e) && !ToEqualUnspecified(e, a)
    ensures ToEqualRaw(e, a) == Some(FirstPath(e) == FirstPath(a))
  {
    if e.Obj? {
      CompareObjectsIffFirstPath(e, a);
    } else if |e.elems| == |a.elems| > 0 {
      CompareArraysIffFirstPath(e.elems, a.elems);
      assert OwnKeys(e)[0] == Num(0) == OwnKeys(a)[0];
    }
  }

  /** Two values that differ after their first entry still pass `toEqual`:
      `{a: 1, b: 2}` against `{a: 1, b: 3}`, and `[1, 2]` against `[1, 3]`. */
  lemma ToEqualMissesLaterEntries()
    ensures ToEqualRaw(Obj([("a", Num(1)), ("b", Num(2))]), Obj([("a", Num(1)), ("b", Num(3))])) == Some(true)
    ensures ToEqualRaw(Arr([Num(1), Num(2)]), Arr([Num(1), Num(3)])) == Some(true)
  {
    var e := Obj([("a", Num(1)), ("b", Num(2))]);
    var a := Obj([("a", Num(1)), ("b", Num(3))]);
    assert OwnKeys(e)[0] == Str("a") == OwnKeys(a)[0];
  }

  /** An empty object equals an empty array: neither has an own key, so the
      initial `true` comes back. */
  lemma EmptyObjectEqualsEmptyArray()
    ensures ToEqualRaw(Obj([]), Arr([])) == Some(true)
  {
  }
}

=== FILE: cstrings.dfy ===
/** C strings. The framework hands script strings to C++ through `char*`
    buffers (`*Utf8Value(...)` into a `std::string`, `c_str()` into the
    engine, `printf("%s")` to the terminal); each such hand-over ends the text
    at its first NUL character. */
module CStrings {

  /** The text a `char*` buffer holding `s` carries: the longest prefix of `s`
      without a NUL. */
  function CText(s: string): (r: string)
    ensures '\0' !in r
    ensures r <= s
    ensures |r| < |s| ==> s[|r|] == '\0'
    decreases |s|
  {
    if |s| == 0 || s[0] == '\0' then "" else [s[0]] + CText(s[1..])
  }

  /** The three clauses of `CText`'s contract determine its result. */
  lemma CTextUnique(s: string, t: string)
    requires '\0' !in t && t <= s
    requires |t| < |s| ==> s[|t|] == '\0'
    ensures t == CText(s)
  {
    var r := CText(s);
    assert |t| == |r|;
  }

  /** A string without NUL passes through whole. */
  lemma CTextOfNulFree(s: string)
    requires '\0' !in s
    ensures CText(s) == s
  {
    CTextUnique(s, s);
  }

  /** A NUL-free head passes through whole; only the tail can be cut. */
  lemma CTextAppend(a: string, b: string)
    requires '\0' !in a
    ensures CText(a + b) == a + CText(b)
  {
    var t := a + CText(b);
    assert t <= a + b by {
      assert CText(b) <= b;
      assert forall i :: 0 <= i < |t| ==> t[i] == (a + b)[i];
    }
    if |t| < |a + b| {
      assert (a + b)[|t|] == b[|CText(b)|];
    }
    CTextUnique(a + b, t);
  }

  /** Cutting twice is cutting once. */
  lemma CTextIdempotent(s: string)
    ensures CText(CText(s)) == CText(s)
  {
    CTextOfNulFree(CText(s));
  }
}

=== FILE: decimal.dfy ===
/** Decimal rendering of integers, as `std::to_string` produces it for the
    line numbers and array sizes that appear in failure diagnostics, together
    with the parser that undoes it. */
module Decimal {
  import opened Options

  predicate IsDigit(c: char) {
    '0' <= c <= '9'
  }

  predicate AllDigits(s: string) {
    forall i :: 0 <= i < |s| ==> IsDigit(s[i])
  }

  function DigitChar(d: nat): (c: char)
    requires d < 10
    ensures IsDigit(c) && c as int - '0' as int == d
  {
    "0123456789"[d]
  }

  /** The digits of `n`, most significant first, without leading zeros. */
  function NatText(n: nat): (s: string)
    ensures |s| > 0 && AllDigits(s)
    ensures |s| > 1 ==> s[0] != '0'
    decreases n
  {
    if n < 10 then [DigitChar(n)] else NatText(n / 10) + [DigitChar(n % 10)]
  }

  /** `std::to_string` of a signed integer: a minus sign for negatives. */
  function IntText(n: int): (s: string)
    ensures |s| > 0
    ensures s[0] == '-' <==> n < 0
    ensures '\0' !in s
  {
    if n < 0 then "-" + NatText(-n) else NatText(n)
  }

  function ParseNat(s: string): nat
    requires AllDigits(s)
  {
    if |s| == 0 then 0
    else ParseNat(s[..|s| - 1]) * 10 + (s[|s| - 1] as int - '0' as int)
  }

  /** Reads back what `IntText` writes; anything else is `None`. */
  function ParseInt(s: string): Option<int> {
    if |s| > 1 && s[0] == '-' && AllDigits(s[1..]) then Some(0 - ParseNat(s[1..]) as int)
    else if |s| > 0 && AllDigits(s) then Some(ParseNat(s))
    else None
  }

  lemma {:induction false} NatTextRoundTrip(n: nat)
    ensures ParseNat(NatText(n)) == n
    decreases n
  {
    if n >= 10 {
      NatTextRoundTrip(n / 10);
      var s := NatText(n);
      assert s[..|s| - 1] == NatText(n / 10);
    }
  }

  /** Rendering an integer and parsing the text gives the integer back, so
      distinct sizes and line numbers always render differently. */
  lemma IntTextRoundTrip(n: int)
    ensures ParseInt(IntText(n)) == Some(n)
  {
    if n < 0 {
      NatTextRoundTrip(-n);
      assert IntText(n)[1..] == NatText(-n);
    } else {
      NatTextRoundTrip(n);
    }
  }

  lemma IntTextInjective(m: int, n: int)
    ensures IntText(m) == IntText(n) <==> m == n
  {
    IntTextRoundTrip(m);
    IntTextRoundTrip(n);
  }
}

=== FILE: diagnostic.dfy ===
/** The three-line failure report of `callbackErrOutput`. The terminal colour
    codes and the call site (resolved by the engine from the current stack
    frame and the module metadata) are parameters. */
module Diagnostic {
  import Decimal
  import opened CStrings

  /** The escape sequences behind the colour names the framework uses. */
  datatype Palette = Palette(red: string, green: string, yellow: string, bold: string, gray: string, reset: string)

  /** A palette that renders no colour at all. */
  const Plain := Palette("", "", "", "", "", "")

  /** The file and line of the script call that made the assertion. */
  datatype Location = Location(file: string, line: int)

  /** The label that marks a negated expectation. */
  function NotPrefix(negate: bool): string {
    if negate then "[Not] " else ""
  }

  /** `callbackErrOutput`: an "Expected" line, a "Received" line and an
      "at file:line" line. The file name arrives through a `char*`, and so
      does the finished text on its way back into the engine. */
  function ErrOutput(p: Palette, loc: Location, expected: string, received: string): string {
    var one := p.red + p.bold + "Expected: " + p.reset + p.red + expected + p.reset + "\n";
    var two := p.yellow + p.bold + "Received: " + p.reset + p.yellow + received + p.reset + "\n";
    var last := "   at " + p.gray + CText(loc.file) + ":" + Decimal.IntText(loc.line) + p.reset + "\n";
    CText(one + two + last)
  }

  /** The three lines of a report without colour, before any cut. */
  lemma PlainLines(file: string, line: string, expected: string, received: string)
    ensures (Plain.red + Plain.bold + "Expected: " + Plain.reset + Plain.red + expected + Plain.reset + "\n")
          + (Plain.yellow + Plain.bold + "Received: " + Plain.reset + Plain.yellow + received + Plain.reset + "\n")
          + ("   at " + Plain.gray + file + ":" + line + Plain.reset + "\n")
         == "Expected: " + expected + "\nReceived: " + received + "\n   at " + file + ":" + line + "\n"
  {
    var p := Plain;
    var one := p.red + p.bold + "Expected: " + p.reset + p.red + expected + p.reset + "\n";
    var two := p.yellow + p.bold + "Received: " + p.reset + p.yellow + received + p.reset + "\n";
    var last := "   at " + p.gray + file + ":" + line + p.reset + "\n";
    assert one == "Expected: " + expected + "\n";
    assert two == "Received: " + received + "\n";
    assert last == "   at " + file + ":" + line + "\n";
  }

  /** Without colour the report is the expected text, the received text and
      the call site, each on its own labelled line, ended at the first NUL;
      a NUL in the file name ends the name, but the line number still
      follows it. */
  lemma ErrOutputPlain(loc: Location, expected: string, received: string)
    ensures ErrOutput(Plain, loc, expected, received)
         == CText("Expected: " + expected + "\nReceived: " + received + "\n   at "
                  + CText(loc.file) + ":" + Decimal.IntText(loc.line) + "\n")
  {
    PlainLines(CText(loc.file), Decimal.IntText(loc.line), expected, received);
  }

  /** With expected and received texts free of NUL, nothing but the file name
      is cut. */
  lemma ErrOutputPlainNulFree(loc: Location, expected: string, received: string)
    requires '\0' !in expected && '\0' !in received
    ensures ErrOutput(Plain, loc, expected, received)
         == "Expected: " + expected + "\nReceived: " + received + "\n   at "
            + CText(loc.file) + ":" + Decimal.IntText(loc.line) + "\n"
  {
    var file := CText(loc.file);
    var line := Decimal.IntText(loc.line);
    ErrOutputPlain(loc, expected, received);
    var all := "Expected: " + expected + "\nReceived: " + received + "\n   at " + file + ":" + line + "\n";
    assert '\0' !in "Expected: " && '\0' !in "\nReceived: " && '\0' !in "\n   at " && '\0' !in ":" && '\0' !in "\n";
    CTextOfNulFree(all);
  }
}

=== FILE: engine.dfy ===
/** Conversions the framework borrows from the script engine. Conversions of
    primitives whose result is fixed by the language are written out; the rest
    (string-to-number parsing, conversions that would run script code, JSON
    serialisation) are capabilities of the `Host` value passed in. */
module Engine {
  import opened Options
  import opened JsValues
  import Decimal
  import opened CStrings

  /** The engine capabilities the model does not define. `numberValue` returns
      `None` for a result that is NaN or not an integer. */
  datatype Host = Host(
    numberValue: Value -> Option<int>,
    toInteger: Value -> int,
    jsonStringify: Value -> string)

  /** `NumberValue()`, restricted to integer results. */
  function NumberValue(host: Host, v: Value): Option<int> {
    match v
    case Undefined => None
    case Null => Some(0)
    case Bool(b) => Some(if b then 1 else 0)
    case Num(n) => Some(n)
    case _ => host.numberValue(v)
  }

  /** `ToInteger()`; NaN (from `undefined`) truncates to zero. */
  function ToInteger(host: Host, v: Value): int {
    match v
    case Undefined => 0
    case Null => 0
    case Bool(b) => if b then 1 else 0
    case Num(n) => n
    case _ => host.toInteger(v)
  }

  /** The string conversion of a primitive (`String(v)`). */
  function PrimitiveText(v: Value): string
    requires !IsObject(v)
  {
    match v
    case Undefined => "undefined"
    case Null => "null"
    case Bool(b) => if b then "true" else "false"
    case Num(n) => Decimal.IntText(n)
    case Str(s) => s
  }

  /** `stringifyForOutput`: objects are JSON-serialised, primitives converted
      to their string form, and the result passes through a `char*`, which
      ends it at its first NUL. A string value is shown up to its first NUL;
      every other primitive is shown whole. */
  function Display(host: Host, v: Value): (r: string)
    ensures '\0' !in r
    ensures v.Str? ==> r == CText(v.s) && ('\0' !in v.s ==> r == v.s)
    ensures !IsObject(v) && !v.Str? ==> r == PrimitiveText(v)
  {
    var raw := if IsObject(v) then host.jsonStringify(v) else PrimitiveText(v);
    assert !IsObject(v) && !v.Str? ==> CText(raw) == raw by {
      if !IsObject(v) && !v.Str? {
        CTextOfNulFree(raw);
      }
    }
    CText(raw)
  }

  /** A number's displayed text reads back as that number. */
  lemma DisplayNumberRoundTrip(host: Host, n: int)
    ensures Decimal.ParseInt(Display(host, Num(n))) == Some(n)
  {
    Decimal.IntTextRoundTrip(n);
  }
}

=== FILE: matchers.dfy ===
/** The six matchers and their callbacks (`toEqual`, `toBeBoolean`,
    `toBeTrue`, `toBeFalse`, `toBeArray`, `toBeArrayOfSize`).

    A matcher reads `negate` and `expected` from the object it was called on,
    checks its argument count, computes a raw verdict and returns it XOR
    `negate`. Its callback writes the result channel only when that return is
    `false`. A usage error throws a script exception, but the C++ code goes on
    returning `false`, so the callback records a failure as well. */
module Matchers {
  import opened Options
  import opened JsValues
  import opened Engine
  import opened Compare
  import opened Diagnostic
  import opened ResultChannel
  import Decimal
  import opened CStrings

  /** The properties of the object a matcher is invoked on that it reads; an
      absent property is `None`. */
  datatype Handle = Handle(expected: Option<Value>, negate: Option<Value>)

  /** The outcome of reading `negate`: its value, and whether the read threw. */
  datatype NegateRead = NegateRead(negate: bool, threw: bool)

  /** `getNegate`: an absent flag reads as `false`; a flag that is present but
      not a boolean throws and also reads as `false`. */
  function GetNegate(h: Handle): (r: NegateRead)
    ensures r.threw <==> h.negate.Some? && !h.negate.value.Bool?
    ensures r.negate <==> h.negate == Some(Bool(true))
  {
    match h.negate
    case None => NegateRead(false, false)
    case Some(v) => if v.Bool? then NegateRead(v.b, false) else NegateRead(false, true)
  }

  /** `getExpected`: an absent value reads as `undefined`. */
  function GetExpected(h: Handle): Value {
    h.expected.GetOr(Undefined)
  }

  datatype Matcher = ToEqual | ToBeBoolean | ToBeTrue | ToBeFalse | ToBeArray | ToBeArrayOfSize

  /** The property under which a handle carries each matcher. */
  function FieldName(m: Matcher): string {
    match m
    case ToEqual => "toEqual"
    case ToBeBoolean => "toBeBoolean"
    case ToBeTrue => "toBeTrue"
    case ToBeFalse => "toBeFalse"
    case ToBeArray => "toBeArray"
    case ToBeArrayOfSize => "toBeArrayOfSize"
  }

  /** Property-style dispatch: the matcher a property name refers to. */
  function MatcherNamed(name: string): (r: Option<Matcher>)
    ensures r.Some? ==> FieldName(r.value) == name
  {
    if name == "toEqual" then Some(ToEqual)
    else if name == "toBeBoolean" then Some(ToBeBoolean)
    else if name == "toBeTrue" then Some(ToBeTrue)
    else if name == "toBeFalse" then Some(ToBeFalse)
    else if name == "toBeArray" then Some(ToBeArray)
    else if name == "toBeArrayOfSize" then Some(ToBeArrayOfSize)
    else None
  }

  /** Every matcher is found again under its own property name, so the six
      names are distinct. */
  lemma MatcherNamedFieldName(m: Matcher)
    ensures MatcherNamed(FieldName(m)) == Some(m)
  {
  }

  /** The first argument, or `undefined` when there is none (`args[0]`). */
  function Arg0(args: seq<Value>): Value {
    if |args| > 0 then args[0] else Undefined
  }

  /** The argument-count checks: `toEqual` takes at most one argument,
      `toBeTrue` none, `toBeArrayOfSize` exactly one; the others take whatever
      they are given. */
  predicate UsageError(m: Matcher, argc: nat) {
    match m
    case ToEqual => argc > 1
    case ToBeTrue => argc > 0
    case ToBeArrayOfSize => argc != 1
    case _ => false
  }

  /** The verdict before negation; `None` only where `toEqual` leaves it
      unspecified. `toBeBoolean` holds exactly when `typeof` says "boolean",
      and `toBeTrue`/`toBeFalse` hold only of the booleans. */
  function Raw(host: Host, m: Matcher, expected: Value, args: seq<Value>): (r: Option<bool>)
    ensures r.None? <==> m == ToEqual && ToEqualUnspecified(expected, Arg0(args))
    ensures m == ToBeBoolean ==> r == Some(TypeOf(expected) == "boolean")
    ensures (m == ToBeTrue || m == ToBeFalse) && r == Some(true) ==> TypeOf(expected) == "boolean"
  {
    match m
    case ToEqual => ToEqualRaw(expected, Arg0(args))
    case ToBeBoolean => Some(expected.Bool?)
    case ToBeTrue => Some(expected == Bool(true))
    case ToBeFalse => Some(expected == Bool(false))
    case ToBeArray => Some(expected.Arr?)
    case ToBeArrayOfSize => Some(expected.Arr? && NumberValue(host, Arg0(args)) == Some(|expected.elems|))
  }

  /** What a matcher returns (`pass`) and whether it threw. */
  datatype Verdict = Verdict(pass: bool, threw: bool) | Unspecified

  /** A matcher call on handle `h` with script arguments `args`. */
  function Evaluate(host: Host, m: Matcher, h: Handle, args: seq<Value>): (v: Verdict)
    ensures UsageError(m, |args|) ==> v == Verdict(false, true)
    ensures v.Unspecified? <==> !UsageError(m, |args|) && Raw(host, m, GetExpected(h), args).None?
    ensures v.Verdict? && !UsageError(m, |args|) ==> v.threw == GetNegate(h).threw
  {
    var n := GetNegate(h);
    if UsageError(m, |args|) then Verdict(false, true)
    else
      match Raw(host, m, GetExpected(h), args)
      case None => Unspecified
      case Some(raw) => Verdict(raw != n.negate, n.threw)
  }

  /** The "Expected" text of a failure report: the value or label the
      assertion wanted, marked "[Not] " when the handle was negated. */
  function ExpectedText(host: Host, m: Matcher, h: Handle, args: seq<Value>): (r: string)
    ensures '\0' !in r
  {
    var pre := NotPrefix(GetNegate(h).negate);
    match m
    case ToEqual => pre + Display(host, GetExpected(h))
    case ToBeBoolean => pre + "boolean"
    case ToBeTrue => pre + "true"
    case ToBeFalse => pre + "false"
    case ToBeArray => pre + "Array"
    case ToBeArrayOfSize => pre + "Array of size " + Decimal.IntText(ToInteger(host, Arg0(args)))
  }

  /** The "Received" text of a failure report. `toBeArray` reports its first
      argument (normally absent, hence "undefined") rather than the value
      under test. */
  function ReceivedText(host: Host, m: Matcher, h: Handle, args: seq<Value>): (r: string)
    ensures '\0' !in r
    ensures m == ToBeBoolean ==> (r == "boolean" <==> GetExpected(h).Bool?)
  {
    var e := GetExpected(h);
    match m
    case ToEqual => Display(host, Arg0(args))
    case ToBeBoolean => Display(host, Str(TypeOf(e)))
    case ToBeTrue => Display(host, e)
    case ToBeFalse => Display(host, e)
    case ToBeArray => Display(host, Arg0(args))
    case ToBeArrayOfSize =>
      if e.Arr? then "Array of size " + Decimal.IntText(|e.elems|) else Display(host, e)
  }

  /** The failure report a callback writes into the channel; it holds no
      NUL, so it survives every later conversion whole. */
  function FailureText(host: Host, p: Palette, site: Location, m: Matcher, h: Handle, args: seq<Value>): (r: string)
    ensures '\0' !in r
  {
    ErrOutput(p, site, ExpectedText(host, m, h, args), ReceivedText(host, m, h, args))
  }

  /** Without colour the report holds both texts whole on their labelled
      lines; only the file name of the call site can be cut short. */
  lemma FailureTextPlain(host: Host, site: Location, m: Matcher, h: Handle, args: seq<Value>)
    ensures FailureText(host, Plain, site, m, h, args)
         == "Expected: " + ExpectedText(host, m, h, args) + "\nReceived: " + ReceivedText(host, m, h, args)
            + "\n   at " + CText(site.file) + ":" + Decimal.IntText(site.line) + "\n"
  {
    ErrOutputPlainNulFree(site, ExpectedText(host, m, h, args), ReceivedText(host, m, h, args));
  }

  /** The result of a `*Callback`: the channel afterwards, the script-visible
      return value and whether an exception is pending. */
  datatype CallResult = CallResult(chan: Channel, ret: bool, threw: bool) | CallUnspecified

  /** `toEqualCallback` and its five siblings. */
  function Callback(host: Host, p: Palette, site: Location, m: Matcher, h: Handle, args: seq<Value>, chan: Channel): (r: CallResult)
    ensures r.CallUnspecified? <==> Evaluate(host, m, h, args).Unspecified?
    ensures r.CallResult? ==> r.ret == Evaluate(host, m, h, args).pass && r.threw == Evaluate(host, m, h, args).threw
    ensures r.CallResult? && r.ret ==> r.chan == chan
    ensures r.CallResult? && !r.ret ==> r.chan == RecordFailure(chan, FailureText(host, p, site, m, h, args))
    ensures r.CallResult? && Valid(chan) ==> Valid(r.chan)
  {
    match Evaluate(host, m, h, args)
    case Unspecified => CallUnspecified
    case Verdict(pass, threw) =>
      if pass then CallResult(chan, true, threw)
      else CallResult(RecordFailure(chan, FailureText(host, p, site, m, h, args)), false, threw)
  }

  // ---------------------------------------------------------------------------
  // Properties

  /** Flipping a boolean `negate` flips every matcher's answer. */
  lemma NegationFlips(host: Host, m: Matcher, e: Value, args: seq<Value>)
    requires !UsageError(m, |args|) && Raw(host, m, e, args).Some?
    ensures Evaluate(host, m, Handle(Some(e), Some(Bool(true))), args).pass
         == !Evaluate(host, m, Handle(Some(e), Some(Bool(false))), args).pass
  {
  }

  /** A handle without a `negate` property behaves as a non-negated one. */
  lemma AbsentNegateIsFalse(host: Host, m: Matcher, e: Option<Value>, args: seq<Value>)
    ensures Evaluate(host, m, Handle(e, None), args) == Evaluate(host, m, Handle(e, Some(Bool(false))), args)
  {
  }

  /** A present, non-boolean `negate` makes every defined matcher call throw. */
  lemma BadNegateThrows(host: Host, m: Matcher, e: Option<Value>, flag: Value, args: seq<Value>)
    requires !flag.Bool?
    ensures Evaluate(host, m, Handle(e, Some(flag)), args).Verdict?
        ==> Evaluate(host, m, Handle(e, Some(flag)), args).threw
  {
  }

  /** `toBeBoolean`, `toBeFalse` and `toBeArray` ignore their arguments. */
  lemma ArgumentsIgnored(host: Host, m: Matcher, h: Handle, args: seq<Value>)
    requires m == ToBeBoolean || m == ToBeFalse || m == ToBeArray
    ensures Evaluate(host, m, h, args) == Evaluate(host, m, h, [])
  {
  }

  /** A value is a boolean exactly when it is `true` or `false`, never both. */
  lemma BooleanIsTrueOrFalse(host: Host, e: Value)
    ensures Raw(host, ToBeBoolean, e, []).value
        <==> Raw(host, ToBeTrue, e, []).value || Raw(host, ToBeFalse, e, []).value
    ensures !(Raw(host, ToBeTrue, e, []).value && Raw(host, ToBeFalse, e, []).value)
  {
  }

  /** `toBeArrayOfSize(n)` holds of arrays of length `n` and nothing else, so
      it implies `toBeArray`, and every array passes it for its own length. */
  lemma ArrayOfSizeMeaning(host: Host, e: Value, n: int)
    ensures Raw(host, ToBeArrayOfSize, e, [Num(n)]) == Some(e.Arr? && |e.elems| == n)
    ensures Raw(host, ToBeArrayOfSize, e, [Num(n)]).value ==> Raw(host, ToBeArray, e, []).value
    ensures e.Arr? ==> Raw(host, ToBeArrayOfSize, e, [Num(|e.elems|)]).value
  {
  }

  /** `toBeArray` holds exactly of the values that pass `toBeArrayOfSize` for
      some size, so plain objects fail it. */
  lemma ToBeArrayIffSomeSize(host: Host, e: Value, args: seq<Value>)
    ensures Raw(host, ToBeArray, e, args).value
        <==> exists n :: Raw(host, ToBeArrayOfSize, e, [Num(n)]).value
  {
    if e.Arr? {
      ArrayOfSizeMeaning(host, e, |e.elems|);
    }
  }

  /** For a primitive value, `toEqual(true)` and `toBeTrue()` agree, as do
      `toEqual(false)` and `toBeFalse()`. */
  lemma ToEqualBooleanAgrees(host: Host, e: Value)
    requires !IsObject(e)
    ensures Raw(host, ToEqual, e, [Bool(true)]) == Raw(host, ToBeTrue, e, [])
    ensures Raw(host, ToEqual, e, [Bool(false)]) == Raw(host, ToBeFalse, e, [])
  {
  }

  /** The report of a label matcher starts with "[Not] " exactly when the
      handle was negated; for `toEqual` the mark precedes the expected value. */
  lemma NotMarkIffNegated(host: Host, m: Matcher, h: Handle, args: seq<Value>)
    ensures m != ToEqual ==>
      (|ExpectedText(host, m, h, args)| >= 6 && ExpectedText(host, m, h, args)[..6] == "[Not] "
       <==> GetNegate(h).negate)
    ensures m == ToEqual ==>
      ExpectedText(host, m, h, args) == NotPrefix(GetNegate(h).negate) + Display(host, GetExpected(h))
  {
    if m != ToEqual {
      var t := ExpectedText(host, m, h, args);
      var tag := t[|NotPrefix(GetNegate(h).negate)|..];
      assert t == NotPrefix(GetNegate(h).negate) + tag;
      assert tag[0] != '[';
      if !GetNegate(h).negate && |t| >= 6 {
        assert t[..6][0] == tag[0];
      }
    }
  }

  /** The texts of a failing `toBeArrayOfSize(n)` on an array: the size asked
      for and the size found. */
  lemma ArrayOfSizeTexts(host: Host, elems: seq<Value>, n: int)
    ensures ExpectedText(host, ToBeArrayOfSize, Handle(Some(Arr(elems)), Some(Bool(false))), [Num(n)])
         == "Array of size " + Decimal.IntText(n)
    ensures ReceivedText(host, ToBeArrayOfSize, Handle(Some(Arr(elems)), Some(Bool(false))), [Num(n)])
         == "Array of size " + Decimal.IntText(|elems|)
  {
    var h := Handle(Some(Arr(elems)), Some(Bool(false)));
    assert GetNegate(h).negate == false;
    assert NotPrefix(false) == "";
    assert ToInteger(host, Arg0([Num(n)])) == n;
    assert GetExpected(h) == Arr(elems);
  }

  /** A usage error still writes a failure into the channel before the
      exception reaches the script. */
  lemma UsageErrorRecordsFailure(host: Host, p: Palette, site: Location, m: Matcher, h: Handle, args: seq<Value>, chan: Channel)
    requires UsageError(m, |args|)
    ensures Callback(host, p, site, m, h, args, chan)
         == CallResult(RecordFailure(chan, FailureText(host, p, site, m, h, args)), false, true)
  {
  }
}

=== FILE: options.dfy ===
/** An optional value: the model's stand-in for an absent property, an unset
    embedder slot or an outcome the source leaves unspecified. */
module Options {

  datatype Option<+T> = None | Some(value: T) {

    /** The wrapped value, or `default` when there is none. */
    function GetOr(default: T): T {
      match this
      case Some(v) => v
      case None => default
    }
  }
}

=== FILE: protocol.dfy ===
/** Properties of the describe/test/expect protocol that relate several
    calls. */
module Protocol {
  import opened Options
  import opened JsValues
  import opened ResultChannel
  import opened Matchers
  import opened Runner
  import opened Engine
  import opened Diagnostic
  import Decimal

  /** Two channels no script can tell apart: the diagnostic slot only matters
      while the pass flag is `false`. */
  predicate Agree(c1: Channel, c2: Channel) {
    c1.suite == c2.suite && c1.ok == c2.ok && (c1.ok == Some(false) ==> c1.errStr == c2.errStr)
  }

  /** Same kind of ending, same output, same value and agreeing channels. */
  predicate SameOutcome(r1: Completion, r2: Completion) {
    match r1
    case Indeterminate => r2.Indeterminate?
    case Raised(c, out) => r2.Raised? && r2.out == out && Agree(c, r2.chan)
    case Returned(c, out, v) => r2.Returned? && r2.out == out && r2.value == v && Agree(c, r2.chan)
  }

  lemma {:induction false} UsesAgree(env: Env, h: Handle, uses: seq<Use>, c1: Channel, c2: Channel)
    requires Valid(c1) && Valid(c2) && Agree(c1, c2)
    ensures SameOutcome(RunUses(env, h, uses, c1), RunUses(env, h, uses, c2))
    decreases uses
  {
    if |uses| > 0 {
      var u := uses[0];
      var r1 := Callback(env.host, env.palette, u.site, u.matcher, ApplyNots(h, u.nots), u.args, c1);
      var r2 := Callback(env.host, env.palette, u.site, u.matcher, ApplyNots(h, u.nots), u.args, c2);
      if r1.CallResult? && !r1.threw {
        UsesAgree(env, h, uses[1..], r1.chan, r2.chan);
      }
    }
  }

  lemma {:induction false} StmtAgree(env: Env, s: Stmt, c1: Channel, c2: Channel)
    requires Valid(c1) && Valid(c2) && Agree(c1, c2)
    ensures SameOutcome(ExecStmt(env, s, c1), ExecStmt(env, s, c2))
    decreases s, 0
  {
    match s
    case Describe(args) =>
      if ValidRunnerArgs(args) {
        DescribeAgree(env, args[0].v.s, args[1].body, c1, c2);
      }
    case Test(args) =>
      if ValidRunnerArgs(args) {
        TestAgree(env, args[0].v.s, args[1].body, c1, c2);
      }
    case Expect(vs, uses) =>
      if c1.ok != Some(false) && |vs| <= 1 {
        UsesAgree(env, ExpectCall(c1, vs).h, uses, c1, c2);
      }
  }

  lemma {:induction false} DescribeAgree(env: Env, name: string, body: seq<Stmt>, c1: Channel, c2: Channel)
    requires Valid(c1) && Valid(c2) && Agree(c1, c2)
    ensures SameOutcome(RunDescribe(env, name, body, c1), RunDescribe(env, name, body, c2))
    decreases body, 1
  {
    BodyAgree(env, body, c1.(suite := Some(name)), c2.(suite := Some(name)));
  }

  /** The channels need only agree on the suite name: the pass flag is reset
      and the old diagnostic is never read. */
  lemma {:induction false} TestAgree(env: Env, name: string, body: seq<Stmt>, c1: Channel, c2: Channel)
    requires Valid(c1) && Valid(c2) && c1.suite == c2.suite
    ensures SameOutcome(RunTest(env, name, body, c1), RunTest(env, name, body, c2))
    decreases body, 1
  {
    BodyAgree(env, body, ResetAssertion(c1), ResetAssertion(c2));
  }

  lemma {:induction false} BodyAgree(env: Env, ss: seq<Stmt>, c1: Channel, c2: Channel)
    requires Valid(c1) && Valid(c2) && Agree(c1, c2)
    ensures SameOutcome(ExecBody(env, ss, c1), ExecBody(env, ss, c2))
    decreases ss, 0
  {
    if |ss| > 0 {
      StmtAgree(env, ss[0], c1, c2);
      var r1 := ExecStmt(env, ss[0], c1);
      var r2 := ExecStmt(env, ss[0], c2);
      if r1.Returned? {
        BodyAgree(env, ss[1..], r1.chan, r2.chan);
      }
    }
  }

  /** `test` resets the pass flag before running its body, so how it ends and
      what it prints never depend on earlier tests: from any two channels with
      the same suite name a well-formed `test` call behaves the same. */
  lemma TestIgnoresEarlierTests(env: Env, args: seq<Arg>, c1: Channel, c2: Channel)
    requires ValidRunnerArgs(args)
    requires Valid(c1) && Valid(c2) && c1.suite == c2.suite
    ensures SameOutcome(ExecStmt(env, Test(args), c1), ExecStmt(env, Test(args), c2))
  {
    TestAgree(env, args[0].v.s, args[1].body, c1, c2);
  }

  /** Statement lists that contain no `describe` call, at any depth. */
  predicate StmtDescribeFree(s: Stmt)
    decreases s, 0
  {
    match s
    case Describe(_) => false
    case Test(args) => ValidRunnerArgs(args) ==> BodyDescribeFree(args[1].body)
    case Expect(_, _) => true
  }

  predicate BodyDescribeFree(ss: seq<Stmt>)
    decreases ss, 1
  {
    forall i | 0 <= i < |ss| :: StmtDescribeFree(ss[i])
  }

  /** Every report in `out` names suite `n`. */
  predicate AllUnder(out: seq<Report>, n: string) {
    forall i | 0 <= i < |out| :: out[i].suite == n
  }

  lemma {:induction false} StmtKeepsSuite(env: Env, s: Stmt, c: Channel, n: string)
    requires Valid(c) && c.suite == Some(n) && StmtDescribeFree(s)
    ensures var r := ExecStmt(env, s, c);
            !r.Indeterminate? ==> r.chan.suite == Some(n) && AllUnder(r.out, n)
    decreases s, 0
  {
    match s
    case Test(args) =>
      if ValidRunnerArgs(args) {
        BodyKeepsSuite(env, args[1].body, ResetAssertion(c), n);
      }
    case Expect(vs, uses) =>
      if c.ok != Some(false) && |vs| <= 1 {
        UsesKeepSuite(env, ExpectCall(c, vs).h, uses, c);
      }
  }

  lemma {:induction false} BodyKeepsSuite(env: Env, ss: seq<Stmt>, c: Channel, n: string)
    requires Valid(c) && c.suite == Some(n) && BodyDescribeFree(ss)
    ensures var r := ExecBody(env, ss, c);
            !r.Indeterminate? ==> r.chan.suite == Some(n) && AllUnder(r.out, n)
    decreases ss, 0
  {
    if |ss| > 0 {
      StmtKeepsSuite(env, ss[0], c, n);
      var r1 := ExecStmt(env, ss[0], c);
      if r1.Returned? {
        assert BodyDescribeFree(ss[1..]) by {
          forall i | 0 <= i < |ss[1..]| ensures StmtDescribeFree(ss[1..][i]) {
            assert ss[1..][i] == ss[i + 1];
          }
        }
        BodyKeepsSuite(env, ss[1..], r1.chan, n);
      }
    }
  }

  lemma {:induction false} UsesKeepSuite(env: Env, h: Handle, uses: seq<Use>, c: Channel)
    requires Valid(c)
    ensures var r := RunUses(env, h, uses, c);
            !r.Indeterminate? ==> r.chan.suite == c.suite
    decreases uses
  {
    if |uses| > 0 {
      var u := uses[0];
      var r1 := Callback(env.host, env.palette, u.site, u.matcher, ApplyNots(h, u.nots), u.args, c);
      if r1.CallResult? && !r1.threw {
        UsesKeepSuite(env, h, uses[1..], r1.chan);
      }
    }
  }

  /** Every test run inside `describe(n, ...)`, however deeply nested in other
      tests, is reported under `n`, provided no other `describe` intervenes. */
  lemma DescribeNamesItsTests(env: Env, n: string, body: seq<Stmt>, c: Channel)
    requires Valid(c) && BodyDescribeFree(body)
    ensures var r := ExecStmt(env, Describe([Val(Str(n)), Fn(body)]), c);
            !r.Indeterminate? ==> AllUnder(r.out, n)
  {
    BodyKeepsSuite(env, body, c.(suite := Some(n)), n);
  }

  /** After a failed assertion `expect` hands out nothing, so any matcher or
      `.not` read on its result throws, whatever the arguments, while a bare
      `expect(1, 2)` then passes without the usage error it would otherwise
      raise. */
  lemma ExpectAfterFailure(env: Env, vs: seq<Value>, uses: seq<Use>, c: Channel)
    requires Valid(c) && c.ok == Some(false)
    ensures |uses| > 0 ==> ExecStmt(env, Expect(vs, uses), c) == Raised(c, [])
    ensures |uses| == 0 ==> ExecStmt(env, Expect(vs, uses), c) == Returned(c, [], Undefined)
  {
  }

  /** The matcher call inside `FailingTest`: `expect(n).toEqual(k)` with
      different numbers fails and records both numbers' texts. */
  lemma NumbersDiffer(host: Host, p: Palette, site: Location, chan: Channel, n: int, k: int)
    requires n != k
    ensures Callback(host, p, site, ToEqual, Handle(Some(Num(n)), Some(Bool(false))), [Num(k)], chan)
         == CallResult(RecordFailure(chan, ErrOutput(p, site, Decimal.IntText(n), Decimal.IntText(k))), false, false)
  {
    var h := Handle(Some(Num(n)), Some(Bool(false)));
    assert Display(host, Num(n)) == PrimitiveText(Num(n)) == Decimal.IntText(n);
    assert Display(host, Num(k)) == PrimitiveText(Num(k)) == Decimal.IntText(k);
    assert NotPrefix(GetNegate(h).negate) == "";
    assert ExpectedText(host, ToEqual, h, [Num(k)]) == Decimal.IntText(n);
    assert ReceivedText(host, ToEqual, h, [Num(k)]) == Decimal.IntText(k);
    assert Evaluate(host, ToEqual, h, [Num(k)]) == Verdict(false, false);
  }

  /** The run after a matcher call on its own. */
  function Ended(c1: Channel, threw: bool): Completion {
    if threw then Raised(c1, []) else Returned(c1, [], Undefined)
  }

  /** One matcher call is the whole run of its list. */
  lemma SingleUse(env: Env, h: Handle, u: Use, chan: Channel, c1: Channel, pass: bool, threw: bool)
    requires Valid(chan)
    requires Callback(env.host, env.palette, u.site, u.matcher, ApplyNots(h, u.nots), u.args, chan)
          == CallResult(c1, pass, threw)
    ensures RunUses(env, h, [u], chan) == Ended(c1, threw)
  {
    assert RunUses(env, h, [u][1..], c1) == Returned(c1, [], Undefined);
  }

  /** A body holding one `expect(x)` statement, run while no assertion has
      failed, is the run of its matcher calls on the fresh handle. */
  lemma SingleExpect(env: Env, x: Value, uses: seq<Use>, chan: Channel, c1: Channel, threw: bool)
    requires Valid(chan) && chan.ok != Some(false)
    requires RunUses(env, Handle(Some(x), Some(Bool(false))), uses, chan) == Ended(c1, threw)
    ensures ExecBody(env, [Expect([x], uses)], chan) == Ended(c1, threw)
  {
    assert ExecStmt(env, Expect([x], uses), chan) == Ended(c1, threw);
  }

  /** A test whose body ends without a pending verdict reports on the flag
      the body left, under the suite name it found, whether or not the body
      threw. */
  lemma SingleTest(env: Env, name: string, body: seq<Stmt>, c: Channel, c1: Channel, threw: bool)
    requires Valid(c)
    requires ExecBody(env, body, ResetAssertion(c)) == Ended(c1, threw)
    ensures c1.ok == Some(false) && !threw ==>
      ExecStmt(env, Test([Val(Str(name)), Fn(body)]), c)
      == Returned(c1, [Failed(SlotText(c.suite), name, c1.errStr.value)], Undefined)
    ensures c1.ok == Some(false) && threw ==>
      ExecStmt(env, Test([Val(Str(name)), Fn(body)]), c)
      == Raised(c1, [Failed(SlotText(c.suite), name, c1.errStr.value)])
    ensures c1.ok == Some(true) && !threw ==>
      ExecStmt(env, Test([Val(Str(name)), Fn(body)]), c)
      == Returned(c1, [Passed(SlotText(c.suite), name)], Bool(true))
    ensures c1.ok == Some(true) && threw ==>
      ExecStmt(env, Test([Val(Str(name)), Fn(body)]), c)
      == Raised(c1, [Passed(SlotText(c.suite), name)])
  {
    assert ValidRunnerArgs([Val(Str(name)), Fn(body)]);
    assert [] + [Passed(SlotText(c.suite), name)] == [Passed(SlotText(c.suite), name)];
    if c1.ok == Some(false) {
      assert [] + [Failed(SlotText(c.suite), name, c1.errStr.value)] == [Failed(SlotText(c.suite), name, c1.errStr.value)];
    }
  }

  /** `test("a", () => expect(n).toEqual(k))` with `n != k` fails and returns
      nothing; its report shows both numbers. */
  lemma FailingTest(host: Host, p: Palette, site: Location, c: Channel, n: int, k: int)
    requires Valid(c) && n != k
    ensures ExecStmt(Env(host, p), Test([Val(Str("a")), Fn([Expect([Num(n)], [Use(0, ToEqual, [Num(k)], site)])])]), c)
         == Returned(c.(ok := Some(false), errStr := Some(ErrOutput(p, site, Decimal.IntText(n), Decimal.IntText(k)))),
                     [Failed(SlotText(c.suite), "a", ErrOutput(p, site, Decimal.IntText(n), Decimal.IntText(k)))],
                     Undefined)
  {
    var env := Env(host, p);
    var u := Use(0, ToEqual, [Num(k)], site);
    var h := Handle(Some(Num(n)), Some(Bool(false)));
    var diag := ErrOutput(p, site, Decimal.IntText(n), Decimal.IntText(k));
    var running := ResetAssertion(c);
    var failed := RecordFailure(running, diag);
    NumbersDiffer(host, p, site, running, n, k);
    assert ApplyNots(h, u.nots) == h;
    SingleUse(env, h, u, running, failed, false, false);
    SingleExpect(env, Num(n), [u], running, failed, false);
    SingleTest(env, "a", [Expect([Num(n)], [u])], c, failed, false);
  }

  /** `test("b", () => expect(n).toEqual(n))` passes and returns `true`,
      whatever the channel held before. */
  lemma PassingTest(host: Host, p: Palette, site: Location, c: Channel, n: int)
    requires Valid(c)
    ensures ExecStmt(Env(host, p), Test([Val(Str("b")), Fn([Expect([Num(n)], [Use(0, ToEqual, [Num(n)], site)])])]), c)
         == Returned(c.(ok := Some(true)), [Passed(SlotText(c.suite), "b")], Bool(true))
  {
    var env := Env(host, p);
    var u := Use(0, ToEqual, [Num(n)], site);
    var h := Handle(Some(Num(n)), Some(Bool(false)));
    var running := ResetAssertion(c);
    assert ApplyNots(h, u.nots) == h;
    assert Evaluate(host, ToEqual, h, [Num(n)]) == Verdict(true, false);
    SingleUse(env, h, u, running, running, true, false);
    SingleExpect(env, Num(n), [u], running, running, false);
    SingleTest(env, "b", [Expect([Num(n)], [u])], c, running, false);
  }

  /** Two statements that both return normally run one after the other. */
  lemma BodyOfTwo(env: Env, a: Stmt, b: Stmt, c: Channel, c1: Channel, c2: Channel,
                  o1: seq<Report>, o2: seq<Report>, v1: Value, v2: Value)
    requires Valid(c)
    requires ExecStmt(env, a, c) == Returned(c1, o1, v1)
    requires ExecStmt(env, b, c1) == Returned(c2, o2, v2)
    ensures ExecBody(env, [a, b], c) == Returned(c2, o1 + o2, Undefined)
  {
    assert [a, b][1..] == [b];
    assert ExecBody(env, [b], c1) == Returned(c2, o2 + [], Undefined);
    assert o2 + [] == o2;
  }

  /** The body of the suite in `FailThenPass`, run under the suite name. */
  lemma FailThenPassBody(host: Host, p: Palette, site: Location, n: int, k: int)
    requires n != k
    ensures var a := Test([Val(Str("a")), Fn([Expect([Num(n)], [Use(0, ToEqual, [Num(k)], site)])])]);
            var b := Test([Val(Str("b")), Fn([Expect([Num(n)], [Use(0, ToEqual, [Num(n)], site)])])]);
            var diag := ErrOutput(p, site, Decimal.IntText(n), Decimal.IntText(k));
            ExecBody(Env(host, p), [a, b], Channel(Some("s"), None, None))
            == Returned(Channel(Some("s"), Some(true), Some(diag)),
                        [Failed("s", "a", diag), Passed("s", "b")], Undefined)
  {
    var env := Env(host, p);
    var a := Test([Val(Str("a")), Fn([Expect([Num(n)], [Use(0, ToEqual, [Num(k)], site)])])]);
    var b := Test([Val(Str("b")), Fn([Expect([Num(n)], [Use(0, ToEqual, [Num(n)], site)])])]);
    var diag := ErrOutput(p, site, Decimal.IntText(n), Decimal.IntText(k));
    var c1 := Channel(Some("s"), None, None);
    var failed := Channel(Some("s"), Some(false), Some(diag));
    var passed := Channel(Some("s"), Some(true), Some(diag));
    FailingTest(host, p, site, c1, n, k);
    PassingTest(host, p, site, failed, n);
    BodyOfTwo(env, a, b, c1, failed, passed, [Failed("s", "a", diag)], [Passed("s", "b")], Undefined, Bool(true));
  }

  /** A suite whose first test fails and whose second passes reports exactly
      that, in order: the failure does not leak into the second test. */
  lemma FailThenPass(host: Host, p: Palette, site: Location, n: int, k: int)
    requires n != k
    ensures var a := Test([Val(Str("a")), Fn([Expect([Num(n)], [Use(0, ToEqual, [Num(k)], site)])])]);
            var b := Test([Val(Str("b")), Fn([Expect([Num(n)], [Use(0, ToEqual, [Num(n)], site)])])]);
            var r := Run(Env(host, p), [Describe([Val(Str("s")), Fn([a, b])])]);
            r.Returned?
            && r.out == [Failed("s", "a", ErrOutput(p, site, Decimal.IntText(n), Decimal.IntText(k))), Passed("s", "b")]
            && r.chan.ok == Some(true)
  {
    var env := Env(host, p);
    var a := Test([Val(Str("a")), Fn([Expect([Num(n)], [Use(0, ToEqual, [Num(k)], site)])])]);
    var b := Test([Val(Str("b")), Fn([Expect([Num(n)], [Use(0, ToEqual, [Num(n)], site)])])]);
    var diag := ErrOutput(p, site, Decimal.IntText(n), Decimal.IntText(k));
    var passed := Channel(Some("s"), Some(true), Some(diag));
    var out := [Failed("s", "a", diag), Passed("s", "b")];
    FailThenPassBody(host, p, site, n, k);
    var d := Describe([Val(Str("s")), Fn([a, b])]);
    assert RunDescribe(env, "s", [a, b], Initial) == Returned(passed, out, Undefined);
    assert ExecStmt(env, d, Initial) == Returned(passed, out, Undefined);
    assert ExecBody(env, [d], Initial) == Returned(passed, out, Undefined);
  }

  /** A matcher usage error inside a test, `expect(x).toEqual(y, z)`, is
      both reported as a failed test and propagated as an exception: the
      later matcher calls on the handle and the later statements of the body
      never run. */
  lemma UsageErrorFailsAndThrows(host: Host, p: Palette, site: Location, x: Value, y: Value, z: Value,
                                 more: seq<Use>, rest: seq<Stmt>, c: Channel)
    requires Valid(c)
    ensures var u := Use(0, ToEqual, [y, z], site);
            var diag := FailureText(host, p, site, ToEqual, Handle(Some(x), Some(Bool(false))), [y, z]);
            ExecStmt(Env(host, p), Test([Val(Str("t")), Fn([Expect([x], [u] + more)] + rest)]), c)
            == Raised(c.(ok := Some(false), errStr := Some(diag)), [Failed(SlotText(c.suite), "t", diag)])
  {
    var env := Env(host, p);
    var u := Use(0, ToEqual, [y, z], site);
    var h := Handle(Some(x), Some(Bool(false)));
    var diag := FailureText(host, p, site, ToEqual, h, [y, z]);
    var running := ResetAssertion(c);
    var failed := RecordFailure(running, diag);
    var e := Expect([x], [u] + more);
    UsageErrorRecordsFailure(host, p, site, ToEqual, h, [y, z], running);
    assert ApplyNots(h, u.nots) == h;
    RunUsesStopsAtThrow(env, h, u, more, running);
    SingleExpect(env, x, [u] + more, running, failed, true);
    ExecBodyStopsAtRaise(env, [e], rest, running);
    SingleTest(env, "t", [e] + rest, c, failed, true);
  }

  /** `expect(x, y)` with no failed assertion throws, and the exception leaves
      the test, its suite and the script: the test still reports that it
      passed, and nothing after the call runs. */
  lemma UsageErrorAbortsRun(env: Env, n: string, a: string, x: Value, y: Value,
                            rest: seq<Stmt>, later: seq<Stmt>, after: seq<Stmt>)
    ensures var t := Test([Val(Str(a)), Fn([Expect([x, y], [])] + rest)]);
            var r := Run(env, [Describe([Val(Str(n)), Fn([t] + later)])] + after);
            r.Raised? && r.out == [Passed(n, a)]
  {
    var suite := Initial.(suite := Some(n));
    var running := ResetAssertion(suite);
    var e := Expect([x, y], []);
    var t := Test([Val(Str(a)), Fn([e] + rest)]);
    var d := Describe([Val(Str(n)), Fn([t] + later)]);
    assert ExecBody(env, [e], running) == Raised(running, []);
    ExecBodyStopsAtRaise(env, [e], rest, running);
    SingleTest(env, a, [e] + rest, suite, running, true);
    assert ExecBody(env, [t], suite) == Raised(running, [Passed(n, a)]);
    ExecBodyStopsAtRaise(env, [t], later, suite);
    assert ExecStmt(env, d, Initial) == Raised(running, [Passed(n, a)]);
    assert ExecBody(env, [d], Initial) == Raised(running, [Passed(n, a)]);
    ExecBodyStopsAtRaise(env, [d], after, Initial);
  }
}

=== FILE: runner.dfy ===
/** `describe`, `test` and `expect` (the module's exported functions), run
    over a script whose function bodies are lists of calls to them.

    A test body is modelled as a list of statements; an `Expect` statement is
    `const h = expect(...args)` followed by matcher calls on `h`, each reached
    through some number of `.not` reads. Output printed by `test` is returned as
    a list of reports; `Render` gives the text. */
module Runner {
  import opened Options
  import opened JsValues
  import opened Engine
  import opened Diagnostic
  import opened ResultChannel
  import opened Matchers
  import opened CStrings

  /** An argument of `describe` or `test`: a value, or a function given by
      its body. */
  datatype Arg = Val(v: Value) | Fn(body: seq<Stmt>)

  /** One matcher call on a handle: `nots` reads of `.not`, then the matcher
      with `args`, made at `site` in the script. */
  datatype Use = Use(nots: nat, matcher: Matcher, args: seq<Value>, site: Location)

  datatype Stmt =
    | Describe(args: seq<Arg>)
    | Test(args: seq<Arg>)
    | Expect(values: seq<Value>, uses: seq<Use>)

  /** The line(s) `test` prints for one test. */
  datatype Report =
    | Passed(suite: string, name: string)
    | Failed(suite: string, name: string, diagnostic: string)

  /** How a call or statement list ended: normally with a return value, with
      a script exception propagating, or in a case the source leaves
      unspecified (an unchecked cast in `toEqual`). */
  datatype Completion =
    | Returned(chan: Channel, out: seq<Report>, value: Value)
    | Raised(chan: Channel, out: seq<Report>)
    | Indeterminate

  /** The engine capabilities and the colour codes. */
  datatype Env = Env(host: Host, palette: Palette)

  /** The channel stays valid, and a set pass flag stays set. */
  predicate Keeps(c: Channel, r: Completion) {
    !r.Indeterminate? ==> Valid(r.chan) && (c.ok.Some? ==> r.chan.ok.Some?)
  }

  /** The argument checks shared by `describe` and `test`: at least two
      arguments, a string name and a function body. */
  predicate ValidRunnerArgs(args: seq<Arg>) {
    |args| >= 2 && args[0].Val? && args[0].v.Str? && args[1].Fn?
  }

  // ---------------------------------------------------------------------------
  // expect

  /** What `expect` gives back. */
  datatype ExpectResult = Handed(h: Handle) | NoHandle | ExpectUsageError

  /** `expect`: once the current test has failed it returns nothing, before
      looking at its arguments; otherwise more than one argument is a usage
      error, and a fresh handle holds the argument (or `undefined`) and a
      `false` negate flag. */
  function ExpectCall(chan: Channel, args: seq<Value>): (r: ExpectResult)
    ensures r.NoHandle? <==> chan.ok == Some(false)
    ensures r.ExpectUsageError? <==> chan.ok != Some(false) && |args| > 1
    ensures r.Handed? ==> GetNegate(r.h) == NegateRead(false, false)
    ensures r.Handed? ==> GetExpected(r.h) == (if |args| == 1 then args[0] else Undefined)
  {
    if chan.ok == Some(false) then NoHandle
    else if |args| > 1 then ExpectUsageError
    else Handed(Handle(Some(Arg0(args)), Some(Bool(false))))
  }

  /** The matcher properties of a handle, in the order `expect` sets them;
      `negate` and `expected` follow, and `not` is an accessor. */
  const MatcherOrder: seq<Matcher> := [ToEqual, ToBeBoolean, ToBeTrue, ToBeFalse, ToBeArray, ToBeArrayOfSize]

  /** The data properties of a fresh handle: exactly one per matcher, then
      `negate` and `expected`. `Handle` keeps only the two data properties,
      and a `Use` names its matcher directly, so this list records the
      property layout of the handle object; `HandleHasEveryMatcher` and
      `Matchers.MatcherNamed` tie each matcher to its property name. */
  function HandleProperties(): (r: seq<string>)
    ensures |r| == |MatcherOrder| + 2
    ensures forall i :: 0 <= i < |MatcherOrder| ==> MatcherNamed(r[i]) == Some(MatcherOrder[i])
    ensures r[|MatcherOrder|..] == ["negate", "expected"]
  {
    ["toEqual", "toBeBoolean", "toBeTrue", "toBeFalse", "toBeArray", "toBeArrayOfSize", "negate", "expected"]
  }

  /** Every matcher has its property on a fresh handle. */
  lemma HandleHasEveryMatcher(m: Matcher)
    ensures FieldName(m) in HandleProperties()[..|MatcherOrder|]
  {
    var i := match m
      case ToEqual => 0
      case ToBeBoolean => 1
      case ToBeTrue => 2
      case ToBeFalse => 3
      case ToBeArray => 4
      case ToBeArrayOfSize => 5;
    assert HandleProperties()[i] == FieldName(m);
  }

  /** The `not` accessor: a copy of the handle with `negate` set to `true`;
      the handle itself is not changed. */
  function Not(h: Handle): (r: Handle)
    ensures GetNegate(r) == NegateRead(true, false)
    ensures r.expected == h.expected
  {
    h.(negate := Some(Bool(true)))
  }

  /** `h` followed by `k` reads of `.not`. */
  function ApplyNots(h: Handle, k: nat): Handle
    decreases k
  {
    if k == 0 then h else Not(ApplyNots(h, k - 1))
  }

  /** Reading `.not` twice, or any positive number of times, is the same as
      reading it once: the flag is set, never toggled. */
  lemma {:induction false} NotsCollapse(h: Handle, k: nat)
    requires k > 0
    ensures ApplyNots(h, k) == Not(h)
    decreases k
  {
    if k > 1 {
      NotsCollapse(h, k - 1);
    }
  }

  /** A matcher on the handle `expect(x)` returns answers its raw verdict
      without throwing, and after any positive number of `.not` reads the
      opposite. */
  lemma FreshHandleAnswersRaw(host: Host, m: Matcher, c: Channel, x: Value, args: seq<Value>, k: nat)
    requires c.ok != Some(false)
    requires !UsageError(m, |args|) && Raw(host, m, x, args).Some?
    ensures k == 0 ==>
      Evaluate(host, m, ApplyNots(ExpectCall(c, [x]).h, k), args) == Verdict(Raw(host, m, x, args).value, false)
    ensures k > 0 ==>
      Evaluate(host, m, ApplyNots(ExpectCall(c, [x]).h, k), args) == Verdict(!Raw(host, m, x, args).value, false)
  {
    if k > 0 {
      NotsCollapse(ExpectCall(c, [x]).h, k);
    }
  }

  /** Every matcher called on `expect(x)`, through any number of `.not`
      reads, reads `x` as its expected value. */
  lemma {:induction false} ExpectedSurvivesNots(c: Channel, x: Value, k: nat)
    requires c.ok != Some(false)
    ensures GetExpected(ApplyNots(ExpectCall(c, [x]).h, k)) == x
    decreases k
  {
    if k > 0 {
      ExpectedSurvivesNots(c, x, k - 1);
    }
  }

  /** So `expect(x).not.not.m(...)` answers like `expect(x).not.m(...)`, the
      opposite of `expect(x).m(...)`. */
  lemma NotNotStaysNegated(host: Host, m: Matcher, x: Value, args: seq<Value>)
    requires !UsageError(m, |args|) && Raw(host, m, x, args).Some?
    ensures var h := ExpectCall(Initial, [x]).h;
            Evaluate(host, m, Not(Not(h)), args).pass == !Evaluate(host, m, h, args).pass
  {
  }

  // ---------------------------------------------------------------------------
  // describe / test

  function ExecStmt(env: Env, s: Stmt, c: Channel): (r: Completion)
    requires Valid(c)
    ensures Keeps(c, r)
    ensures (s.Describe? || s.Test?) && !ValidRunnerArgs(s.args) ==> r == Raised(c, [])
    ensures s.Expect? && c.ok != Some(false) && |s.values| > 1 ==> r == Raised(c, [])
    ensures s.Expect? && c.ok == Some(false) ==>
      !r.Indeterminate? && r.chan == c && r.out == [] && (r.Raised? <==> |s.uses| > 0)
    decreases s, 0
  {
    match s
    case Describe(args) =>
      if !ValidRunnerArgs(args) then Raised(c, [])
      else RunDescribe(env, args[0].v.s, args[1].body, c)
    case Test(args) =>
      if !ValidRunnerArgs(args) then Raised(c, [])
      else RunTest(env, args[0].v.s, args[1].body, c)
    case Expect(args, uses) =>
      match ExpectCall(c, args)
      case NoHandle =>
        // no handle: reading a matcher or `.not` from `undefined` throws
        if |uses| == 0 then Returned(c, [], Undefined) else Raised(c, [])
      case ExpectUsageError => Raised(c, [])
      case Handed(h) => RunUses(env, h, uses, c)
  }

  /** `describe`: records the suite name, then runs the body; an exception
      from the body propagates. */
  function RunDescribe(env: Env, name: string, body: seq<Stmt>, c: Channel): (r: Completion)
    requires Valid(c)
    ensures Keeps(c, r)
    ensures r.Raised? <==> ExecBody(env, body, c.(suite := Some(name))).Raised?
    ensures r.Indeterminate? <==> ExecBody(env, body, c.(suite := Some(name))).Indeterminate?
    ensures !r.Indeterminate? ==>
      r.chan == ExecBody(env, body, c.(suite := Some(name))).chan
      && r.out == ExecBody(env, body, c.(suite := Some(name))).out
    ensures r.Returned? ==> r.value == Undefined
    decreases body, 1
  {
    match ExecBody(env, body, c.(suite := Some(name)))
    case Returned(c1, out, _) => Returned(c1, out, Undefined)
    case other => other
  }

  /** `test`: reads the suite name, sets the pass flag, runs the body and
      reports on the flag it finds afterwards, even when the body threw. It
      returns `true` on success and nothing on failure. */
  function RunTest(env: Env, name: string, body: seq<Stmt>, c: Channel): (r: Completion)
    requires Valid(c)
    ensures Keeps(c, r)
    ensures !r.Indeterminate? ==> r.chan.ok.Some? && |r.out| > 0
    ensures !r.Indeterminate? && r.chan.ok == Some(true) ==>
      r.out[|r.out| - 1] == Passed(SlotText(c.suite), name)
    ensures !r.Indeterminate? && r.chan.ok == Some(false) ==>
      r.out[|r.out| - 1] == Failed(SlotText(c.suite), name, r.chan.errStr.value)
    ensures r.Returned? ==> (r.value == Bool(true) <==> r.chan.ok == Some(true))
    ensures r.Returned? ==> (r.value == Undefined <==> r.chan.ok == Some(false))
    decreases body, 1
  {
    var parent := SlotText(c.suite);
    var done := ExecBody(env, body, ResetAssertion(c));
    if done.Indeterminate? then Indeterminate
    else
      var c1 := done.chan;
      var failed := c1.ok == Some(false);
      var report := if failed then Failed(parent, name, c1.errStr.value) else Passed(parent, name);
      var value := if failed then Undefined else Bool(c1.ok.value);
      if done.Raised? then Raised(c1, done.out + [report])
      else Returned(c1, done.out + [report], value)
  }

  /** Runs a statement list in order, stopping at the first exception. */
  function ExecBody(env: Env, ss: seq<Stmt>, c: Channel): (r: Completion)
    requires Valid(c)
    ensures Keeps(c, r)
    decreases ss, 0
  {
    if |ss| == 0 then Returned(c, [], Undefined)
    else
      match ExecStmt(env, ss[0], c)
      case Indeterminate => Indeterminate
      case Raised(c1, o1) => Raised(c1, o1)
      case Returned(c1, o1, _) =>
        match ExecBody(env, ss[1..], c1)
        case Indeterminate => Indeterminate
        case Raised(c2, o2) => Raised(c2, o1 + o2)
        case Returned(c2, o2, _) => Returned(c2, o1 + o2, Undefined)
  }

  /** The matcher calls on one handle; matchers print nothing. */
  function RunUses(env: Env, h: Handle, uses: seq<Use>, c: Channel): (r: Completion)
    requires Valid(c)
    ensures Keeps(c, r)
    ensures !r.Indeterminate? ==> r.out == []
    decreases uses
  {
    if |uses| == 0 then Returned(c, [], Undefined)
    else
      var u := uses[0];
      match Callback(env.host, env.palette, u.site, u.matcher, ApplyNots(h, u.nots), u.args, c)
      case CallUnspecified => Indeterminate
      case CallResult(c1, _, threw) =>
        if threw then Raised(c1, []) else RunUses(env, h, uses[1..], c1)
  }

  /** An exception raised by a statement list leaves it: statements after
      the list never run. */
  lemma {:induction false} ExecBodyStopsAtRaise(env: Env, a: seq<Stmt>, b: seq<Stmt>, c: Channel)
    requires Valid(c) && ExecBody(env, a, c).Raised?
    ensures ExecBody(env, a + b, c) == ExecBody(env, a, c)
    decreases a
  {
    if |a| > 0 {
      assert (a + b)[0] == a[0];
      assert (a + b)[1..] == a[1..] + b;
      var r1 := ExecStmt(env, a[0], c);
      if r1.Returned? {
        ExecBodyStopsAtRaise(env, a[1..], b, r1.chan);
      }
    }
  }

  /** A matcher call that throws ends the statement: the later matcher calls
      on the handle never run. */
  lemma RunUsesStopsAtThrow(env: Env, h: Handle, u: Use, more: seq<Use>, c: Channel)
    requires Valid(c)
    requires Callback(env.host, env.palette, u.site, u.matcher, ApplyNots(h, u.nots), u.args, c).CallResult?
    requires Callback(env.host, env.palette, u.site, u.matcher, ApplyNots(h, u.nots), u.args, c).threw
    ensures RunUses(env, h, [u] + more, c)
         == Raised(Callback(env.host, env.palette, u.site, u.matcher, ApplyNots(h, u.nots), u.args, c).chan, [])
  {
    assert ([u] + more)[0] == u;
  }

  /** A whole module's top-level statements, from a fresh context. */
  function Run(env: Env, script: seq<Stmt>): Completion {
    ExecBody(env, script, Initial)
  }

  /** The text `test` prints for a report. A report holds the script-level
      strings; each reaches `printf("%s")` as a `char*` and is printed up to
      its first NUL. */
  function Render(p: Palette, r: Report): string {
    match r
    case Passed(suite, name) =>
      p.green + "✓ " + CText(suite) + " " + p.reset + "> " + p.green + CText(name) + p.reset + "\n"
    case Failed(suite, name, diagnostic) =>
      p.red + "✗ " + CText(suite) + p.reset + " > " + p.red + CText(name) + p.reset + "\n" + CText(diagnostic) + "\n"
  }

  /** Without colour, a passing test prints "✓ suite > name" and a failing
      one "✗ suite > name" followed by its diagnostic block; the suite name,
      the test name and the diagnostic each end at their first NUL, while
      the rest of the line is still printed. */
  lemma RenderPlain(suite: string, name: string, diagnostic: string)
    ensures Render(Plain, Passed(suite, name)) == "✓ " + CText(suite) + " > " + CText(name) + "\n"
    ensures Render(Plain, Failed(suite, name, diagnostic))
         == "✗ " + CText(suite) + " > " + CText(name) + "\n" + CText(diagnostic) + "\n"
  {
    var s, n, d := CText(suite), CText(name), CText(diagnostic);
    var p := Plain;
    assert p.green + "✓ " + s + " " + p.reset + "> " + p.green + n + p.reset + "\n"
        == "✓ " + s + " > " + n + "\n";
    assert p.red + "✗ " + s + p.reset + " > " + p.red + n + p.reset + "\n" + d + "\n"
        == "✗ " + s + " > " + n + "\n" + d + "\n";
  }

  /** Names free of NUL are printed as they are. */
  lemma RenderPlainNulFree(suite: string, name: string)
    requires '\0' !in suite && '\0' !in name
    ensures Render(Plain, Passed(suite, name)) == "✓ " + suite + " > " + name + "\n"
  {
    RenderPlain(suite, name, "");
    CTextOfNulFree(suite);
    CTextOfNulFree(name);
  }

  /** A diagnostic a matcher callback recorded is printed whole. */
  lemma RenderFailureText(host: Host, site: Location, m: Matcher, h: Handle, args: seq<Value>, suite: string, name: string)
    ensures Render(Plain, Failed(suite, name, FailureText(host, Plain, site, m, h, args)))
         == "✗ " + CText(suite) + " > " + CText(name) + "\n" + FailureText(host, Plain, site, m, h, args) + "\n"
  {
    RenderPlain(suite, name, FailureText(host, Plain, site, m, h, args));
    CTextOfNulFree(FailureText(host, Plain, site, m, h, args));
  }

  // ---------------------------------------------------------------------------
  // exports

  /** `getExports`: the three functions and the default export object, each
      named once, the default last. */
  function Exports(): (r: seq<string>)
    ensures |r| == 4 && r[3] == "default"
    ensures forall i, j :: 0 <= i < j < |r| ==> r[i] != r[j]
    ensures forall i :: 0 <= i < 3 ==> r[i] in {"describe", "test", "expect"}
    ensures r[0] == "describe" && r[1] == "test" && r[2] == "expect"
  {
    ["describe", "test", "expect", "default"]
  }
}

=== FILE: values.dfy ===
/** Script values as the test framework sees them through the engine's API:
    primitives, arrays and plain objects. The engine's object identity,
    functions, symbols and floating-point numbers are outside this model. */
module JsValues {

  /** A script value. `Obj` lists its own enumerable properties in the order
      the engine enumerates them; names are expected to be distinct and not
      array indices. */
  datatype Value =
    | Undefined
    | Null
    | Bool(b: bool)
    | Num(n: int)
    | Str(s: string)
    | Arr(elems: seq<Value>)
    | Obj(props: seq<(string, Value)>)

  /** The engine's `IsObject()`: arrays are objects too. */
  predicate IsObject(v: Value) {
    v.Arr? || v.Obj?
  }

  /** Strict equality (`===`). The framework only applies it when at least one
      side is a primitive, where it is equality of kind and content; between two
      objects it would compare identity, which an immutable value lacks. */
  predicate StrictEquals(a: Value, b: Value)
    requires !(IsObject(a) && IsObject(b))
  {
    a == b
  }

  /** `GetOwnPropertyNames`: array indices come back as numbers, object
      property names as strings. */
  function OwnKeys(v: Value): (keys: seq<Value>)
    requires IsObject(v)
    ensures |keys| == if v.Arr? then |v.elems| else |v.props|
    ensures v.Arr? ==> forall i :: 0 <= i < |keys| ==> keys[i] == Num(i)
    ensures v.Obj? ==> forall i :: 0 <= i < |keys| ==> keys[i] == Str(v.props[i].0)
    ensures forall i :: 0 <= i < |keys| ==> !IsObject(keys[i])
  {
    if v.Arr? then seq(|v.elems|, i => Num(i))
    else seq(|v.props|, i requires 0 <= i < |v.props| => Str(v.props[i].0))
  }

  /** The value of the first property called `name`, or `undefined`. */
  function Lookup(props: seq<(string, Value)>, name: string): Value {
    if |props| == 0 then Undefined
    else if props[0].0 == name then props[0].1
    else Lookup(props[1..], name)
  }

  /** Property read `obj[key]` on an object; a missing property reads as
      `undefined`, as does an array index past the end. */
  function Get(v: Value, key: Value): Value
    requires IsObject(v)
  {
    match v
    case Arr(es) => if key.Num? && 0 <= key.n < |es| then es[key.n] else Undefined
    case Obj(ps) => if key.Str? then Lookup(ps, key.s) else Undefined
  }

  /** The value stored under an object's first own key. */
  function FirstValue(v: Value): Value
    requires IsObject(v) && |OwnKeys(v)| > 0
  {
    if v.Arr? then v.elems[0] else v.props[0].1
  }

  /** Reading an object at its first own key yields its first value. */
  lemma GetFirstKey(v: Value)
    requires IsObject(v) && |OwnKeys(v)| > 0
    ensures Get(v, OwnKeys(v)[0]) == FirstValue(v)
  {
  }

  /** The engine's `typeof`: "boolean" for exactly the booleans, "object" for
      `null` as well as for arrays and objects. */
  function TypeOf(v: Value): (r: string)
    ensures r == "boolean" <==> v.Bool?
    ensures r == "object" <==> v.Null? || IsObject(v)
    ensures r in {"undefined", "object", "boolean", "number", "string"}
  {
    match v
    case Undefined => "undefined"
    case Null => "object"
    case Bool(_) => "boolean"
    case Num(_) => "number"
    case Str(_) => "string"
    case Arr(_) => "object"
    case Obj(_) => "object"
  }
}
